=== FILE: README.md ===
# graphprop propagation engine, in Dafny

A model of the propagation engine of graphprop (`graphprop/core.py`). A
`Graph` keeps an insertion-ordered registry of `Node`s and a clock. Each node
has a name, an `is_origin` flag, an ordered list of propagation conditions
`{from, intensity, lag}` and an append-only history `values`. On every tick
(`update`) the clock advances by one and every node, in registration order,
appends one value:

- an origin node appends a fresh draw;
- any other node appends the left-to-right sum of
  `intensity * values_of(from)[time - lag - 1]` over its conditions.

`initialize(maxlag)` seeds every history with `maxlag` zeros, sets the clock
to `maxlag` and runs `maxlag` burn-in ticks. `realization` cuts every history
at index `2 * maxlag`.

Files:

| file | module | contents |
|---|---|---|
| `wrappers.dfy` | `Wrappers` | `Option`, `Result` |
| `pylist.dfy` | `PyList` | Python list semantics used by the engine: `xs[i]` with negative indices, `xs[start:]`, `n * [v]` |
| `node.dfy` | `Nodes` | `Cond`, `Node`, `Node(...)`, `add_condition`, appending to a history |
| `graph.dfy` | `Graphs` | the registry, `add_node`, `write_node_condition`, `update` (the node loop, node by node, as written), `initialize`, `realization` |
| `propagation.dfy` | `Propagation` | the recurrence as a reference "snapshot" tick `Next`, and the theorem that the sequential node loop computes it |
| `order.dfy` | `Order` | given the same draw per node name, registration order does not matter to a tick under the lag bound, and does matter without it |
| `lifecycle.dfy` | `Lifecycle` | whole runs: setup calls, `initialize`, `k` updates, `realization` |

Modelling choices:

- **Registry.** The Python dict is a `seq<Node>` in insertion order. Each node
  carries its own key as `name`. A lookup returns the first node with that
  name. Re-adding a name replaces the node at its old position, as a dict
  does for a re-assigned key.
- **Exceptions.** A call that raises returns `Raised(error, graph)`. `graph`
  is the state the object is left in. `update` advances the clock before its
  node loop, so a failure inside the loop leaves the clock advanced and the
  nodes before the failing one already extended (`UpdateRaisesPartway`).
- **Values.** Histories hold `real`s, so sums are exact.
- **Draws.** The value an origin node draws during a tick is a parameter
  `draw: string -> real`, keyed by node name. A run of several ticks takes
  `draws: nat -> Draw`, one draw per tick.
- **Lag bound.** `Wired(nodes, m)`: every condition of a non-origin node names
  a registered node and has `1 <= lag <= m`. `Synced(g)`: the clock is set and
  every history holds exactly `time` values. Under these two predicates every
  read lands in a value written before the tick.

Checks one might expect that the code does not make; the model follows the
code:

- `add_node` overwrites an existing name; nothing is rejected.
- `write_node_condition(target, prop_from, ...)` attaches the condition to
  the node named by the first argument, and reads from the second. Only the
  target is looked up. An unregistered source is only noticed by a later
  `update`, which then raises (`UpdateRaisesOnMissingSource`).
- Calling `initialize` twice is not rejected. It seeds and burns in again on
  top of the existing histories; `Initialize`'s contract covers any starting
  graph.
- A failure in the middle of a tick is not rolled back. The clock stays
  advanced and earlier nodes keep their new value (`UpdateRaisesPartway`).
- `realization` on a graph that has nodes but was never initialized fails,
  because `self.maxlag` does not exist yet (`NoMaxlag`). On an empty graph it
  returns an empty table.
- No lag is validated. `lag = 0` reads the slot being written in the same
  tick, so the result depends on registration order
  (`SameTickReadDependsOnOrder`). A lag larger than `time - 1` reads from
  the end of the list through Python's negative indexing. Both behaviours are
  in the model (`PyList.At`); the theorems assume the lag bound.

## Model

| member | source | states |
|---|---|---|
| `Nodes.NewNode` | graphprop/core.py:63-67 | a new node has the given name and flag, no conditions and an empty history |
| `Nodes.AddCondition` | graphprop/core.py:69-76 | exactly one condition `{from, intensity, lag}` is appended at the end of the list; the name, flag, history and earlier conditions are unchanged |
| `Nodes.Append` | graphprop/core.py:37 | appending keeps the node's shape, keeps the old history as a prefix, and adds one value equal to the appended one |
| `Graphs.FindSpec` | graphprop/core.py:41 | a key lookup finds the first node registered under the key, and fails exactly when no node carries it |
| `Graphs.LookupSpec` | graphprop/core.py:41 | `self.nodes[name]` succeeds exactly for registered keys and returns a registered node of that name |
| `Graphs.AddNode` | graphprop/core.py:14-15 | the clock is untouched; the keys are unchanged if the name was registered, otherwise the name is added last; looking the name up gives a fresh node; every node of another name is untouched |
| `Order.AddNodeKeepsUnique` | graphprop/core.py:14-15 | after `add_node` every key still occurs once, so a re-added name replaces rather than duplicates |
| `Graphs.WriteNodeCondition` | graphprop/core.py:46-48 | raises `KeyError(target)` exactly when the target is unregistered, changing nothing; otherwise only the target's condition list changes, by one appended condition; the source is not checked |
| `Graphs.UpdateFrom` | graphprop/core.py:34-44 | the node loop keeps the clock and `maxlag`, only extends histories, leaves the nodes before its position untouched, gives each later node at most one value and exactly one on success, and raises only a `KeyError` or `IndexError` from a read |
| `Graphs.Update` | graphprop/core.py:26-44 | before `initialize` it raises and leaves the graph exactly as it was; once the clock is set, the clock advances by one and the only errors raised are a `KeyError` or `IndexError` from a read; `maxlag` is kept; histories are only extended, each by at most one value, and by exactly one when no error is raised |
| `Graphs.UpdateFromRaisesPartway` | graphprop/core.py:34-44 | a node loop from position `i` that raises fails at some node `p >= i`: each node from `i` up to but not including `p` has gained exactly one value, every other node (node `p` included) is unchanged, and the error is the one node `p`'s value raises against the registry as it then stands |
| `Graphs.UpdateRaisesPartway` | graphprop/core.py:26-44 | an `update` after `initialize` that raises is not rolled back: it fails at some node `p`, every node before `p` has gained exactly one value, node `p` and the nodes after it are unchanged, and the error is node `p`'s |
| `Graphs.RunSpec` | graphprop/core.py:23-24 | `k` updates only extend histories and keep `maxlag`; when none raises, the clock advances by `k` and every history gains exactly `k` values |
| `Graphs.Initialize` | graphprop/core.py:17-24 | `maxlag` is set; names, flags and conditions are kept; every old history followed by `maxlag` zeros is a prefix of the new one; on success the clock is `maxlag + max(maxlag, 0)` and every history gained `2 * max(maxlag, 0)` values |
| `Graphs.Realization` | graphprop/core.py:50-58 | fails exactly for a non-empty graph without `maxlag`; otherwise one column per node in registration order, named by the node, holding `values[2*maxlag:]` |
| `Propagation.WiredReadsInRange` | graphprop/core.py:42 | with the lag bound and every history `time` long, each read index `t - lag - 1` at the advanced clock `t` lies in `0 ..= t - 2` and is in range of the source's history |
| `Propagation.AccumulateIsContribution` | graphprop/core.py:39-43 | the loop over the conditions returns the running total plus the left-to-right sum of `intensity * source[time - lag - 1]` taken from the pre-tick histories, however much the registry has grown since |
| `Propagation.AccumulateRaisesFirstError` | graphprop/core.py:40-43 | the loop over the conditions succeeds exactly when every read succeeds, and otherwise raises the error of the first failing read |
| `Propagation.UpdateRaisesOnMissingSource` | graphprop/core.py:41 | when some non-origin node has a condition reading from an unregistered name, the next `update` raises, with the clock already advanced |
| `Propagation.UpdateFromIsSnapshot` | graphprop/core.py:34-44 | from any point of the node loop, the sequential loop finishes at the reference tick |
| `Propagation.UpdateIsSnapshot` | graphprop/core.py:26-44 | on a synced graph under the lag bound, `update` succeeds and equals the reference tick, in which every value is computed from the pre-tick histories |
| `Propagation.NextTick` | graphprop/core.py:33-44 | the reference tick advances the clock by one, keeps names, flags and conditions, appends one value per node (the draw for an origin, 0 for a node without conditions, else the weighted sum) and keeps the graph synced |
| `Order.LookupAgrees` | graphprop/core.py:41 | two registration orders of the same dict answer every key lookup alike |
| `Order.ContributionAgrees` | graphprop/core.py:39-43 | the weighted sum does not depend on the registration order of the dict |
| `Order.TickIgnoresOrder` | graphprop/core.py:34-44 | under the lag bound, the same dict in another registration order is synced and wired too, and, with the same draw per node name, its tick gives every node the same new history |
| `Order.SameTickReadDependsOnOrder` | graphprop/core.py:42 | with `lag = 0` the order matters: for the same dict, one order succeeds with the copied value and the other raises `IndexError` |
| `Lifecycle.SetupFromNew` | graphprop/core.py:10-15 | any script of `add_node` and `write_node_condition` calls on `Graph()` leaves unique keys, empty histories and the clock unset |
| `Lifecycle.TickKeepsSynced` | graphprop/core.py:26-44 | one update of a synced graph under the lag bound succeeds, keeps every history `time` long and keeps the lag bound |
| `Lifecycle.RunFromSynced` | graphprop/core.py:26-44 | `k` updates of a synced graph under the lag bound all succeed, advance the clock by `k` and keep `values` exactly `time` long |
| `Lifecycle.BurnInSucceeds` | graphprop/core.py:17-24 | on nodes without history and under the lag bound, the burn-in raises nothing and leaves a synced graph |
| `Lifecycle.InitializeFromPristine` | graphprop/core.py:17-24 | on nodes without history and under the lag bound, `initialize(maxlag)` succeeds, sets the clock to `2 * maxlag`, and leaves `2 * maxlag` values per node, the first `maxlag` of them zero, with names, flags and conditions unchanged (a negative `maxlag` seeds nothing, runs nothing and leaves the clock at `maxlag`) |
| `Lifecycle.RealizationAfterUpdates` | graphprop/core.py:50-58 | after `initialize(maxlag)` and `k` updates, nothing raises; the realization has one column per node in registration order, and each column holds exactly the `k` values appended after the burn-in (none when `k = 0`) |
| `PyList.At` | graphprop/core.py:42 | `xs[i]` succeeds exactly for `-len(xs) <= i < len(xs)`, returning element `i` for a non-negative index and element `len(xs) + i` for a negative one |
| `PyList.SliceFrom` | graphprop/core.py:56 | `xs[start:]` is the suffix from `start`, empty past the end, and counts from the end for a negative start |
| `PyList.Repeat` | graphprop/core.py:19 | `n * [v]` has `max(n, 0)` elements, all equal to `v` |

## Left out

- `example/tutorial.py` (correlation helpers, plotting, printing) is not part of this model.
- The draw `np.random.normal(10, 1)` is replaced by a caller-supplied `Draw` function. Nothing is claimed about its distribution.
- The pandas `DataFrame` built by `realization` is modelled as a sequence of named columns. NaN padding of unequal columns and the transposition are not modelled.
- Floating point is not modelled. Values are exact `real`s, so rounding and the summation order's effect on rounding are out of scope.
- `update` starts its sum from the integer `0`, so a non-origin node without conditions appends the integer `0`. The model appends `0.0`.
- Values of `maxlag` and `lag` that are not Python integers are not modelled.
- `Lifecycle.InitializeFromPristine` and `Lifecycle.RealizationAfterUpdates` assume nodes without history and the lag bound `1 <= lag <= maxlag` with every source registered. `RealizationAfterUpdates` also assumes `maxlag >= 0`. Outside these assumptions only the general contracts of `Graphs.Initialize`, `Graphs.RunSpec` and `Graphs.Realization` apply.
- `Order.TickIgnoresOrder` compares two registries that hold the same nodes with unique keys. It says nothing about graphs whose keys repeat, which `add_node` never produces (`Order.AddNodeKeepsUnique`).
- Order.TickIgnoresOrder: holds for origin nodes only because the model's draw is keyed by node name. `update` takes `np.random.normal(10, 1)` from one global stream in registration order, so under a fixed seed two registration orders give origin nodes different values, and the nodes downstream of them differ too. What does not depend on the draws, the weighted sum computed for a non-origin node from given histories, is independent of the order.

=== FILE: graph.dfy ===
/**
 The propagation engine: a registry of nodes in insertion order, the
 simulation clock, and the operations `add_node`, `write_node_condition`,
 `update`, `initialize` and `realization`.

 Python's dict is modelled as the sequence of its values in insertion order
 (each node carries its own key as `name`); a lookup returns the first node
 of that name. A method that raises is modelled by `Raised(error, graph)`,
 where `graph` is the state the object is left in when the exception
 propagates, which for `update` may be partly advanced.
 */
module Graphs {
  import opened Wrappers
  import opened PyList
  import opened Nodes

  /** The values drawn for origin nodes during one tick, by node name. */
  type Draw = string -> real

  datatype Error =
    | NotInitialized                      // `update` while `time` is None
    | NoMaxlag                            // `realization` reads `maxlag` before `initialize`
    | KeyError(key: string)               // an unregistered node name
    | IndexError(source: string, index: int)  // a history read out of range

  /** `time` and `maxlag` are unset (`None`) until `initialize`. */
  datatype Graph = Graph(nodes: seq<Node>, time: Option<int>, maxlag: Option<int>)

  /** The outcome of a mutating call: the state afterwards, and the error it
      raised, if any. */
  datatype Step = Done(graph: Graph) | Raised(error: Error, graph: Graph)

  /** One column of the realization table. */
  datatype Column = Column(name: string, series: seq<real>)

  /** `Graph()`: no nodes, clock unset. */
  function NewGraph(): Graph {
    Graph([], None, None)
  }

  /** The registry's keys, in insertion order. */
  function Names(nodes: seq<Node>): (r: seq<string>)
    ensures |r| == |nodes|
    ensures forall i :: 0 <= i < |nodes| ==> r[i] == nodes[i].name
  {
    seq(|nodes|, i requires 0 <= i < |nodes| => nodes[i].name)
  }

  /** The position of the node registered as `name`, if any. */
  function Find(nodes: seq<Node>, name: string): (r: Option<nat>)
    ensures r.Some? ==> r.value < |nodes|
  {
    if |nodes| == 0 then None
    else if nodes[0].name == name then Some(0)
    else match Find(nodes[1..], name)
      case None => None
      case Some(j) => Some(j + 1)
  }

  /** `Find` answers with the first position holding `name`, and answers
      `None` exactly when no node holds it. */
  lemma {:induction false} FindSpec(nodes: seq<Node>, name: string)
    ensures Find(nodes, name).None? <==> name !in Names(nodes)
    ensures Find(nodes, name).Some? ==>
      var j := Find(nodes, name).value;
      && j < |nodes| && nodes[j].name == name
      && forall i :: 0 <= i < j ==> nodes[i].name != name
  {
    if |nodes| > 0 && nodes[0].name != name {
      FindSpec(nodes[1..], name);
      assert Names(nodes) == [nodes[0].name] + Names(nodes[1..]);
      if Find(nodes[1..], name).Some? {
        var j := Find(nodes[1..], name).value;
        forall i | 0 <= i < j + 1 ensures nodes[i].name != name {
          if i > 0 { assert nodes[i] == nodes[1..][i - 1]; }
        }
      }
    }
  }

  /** `self.nodes[name]`. */
  function Lookup(nodes: seq<Node>, name: string): Option<Node> {
    match Find(nodes, name)
    case None => None
    case Some(j) => Some(nodes[j])
  }

  /** A lookup succeeds exactly for the registered keys, and returns a node
      registered under that key. */
  lemma LookupSpec(nodes: seq<Node>, name: string)
    ensures Lookup(nodes, name).Some? <==> name in Names(nodes)
    ensures Lookup(nodes, name).Some? ==> Lookup(nodes, name).value in nodes && Lookup(nodes, name).value.name == name
  {
    FindSpec(nodes, name);
  }

  /** Same keys in the same order, same flags and conditions, and every
      history only extended at its end. */
  predicate Grows(before: seq<Node>, after: seq<Node>) {
    && |before| == |after|
    && forall j :: 0 <= j < |before| ==> Extends(before[j], after[j])
  }

  lemma GrowsReflexive(a: seq<Node>)
    ensures Grows(a, a)
  {
  }

  lemma GrowsTransitive(a: seq<Node>, b: seq<Node>, c: seq<Node>)
    requires Grows(a, b) && Grows(b, c)
    ensures Grows(a, c)
  {
    forall j | 0 <= j < |a|
      ensures SameShape(a[j], c[j]) && a[j].values <= c[j].values
    {
      assert a[j].values == b[j].values[..|a[j].values|];
      assert b[j].values == c[j].values[..|b[j].values|];
    }
  }

  /** `add_node(name, is_origin)`: a fresh node under `name`. An existing
      node of that name is replaced in its place (a dict keeps the position
      of a re-assigned key); otherwise the new node goes last. */
  function AddNode(g: Graph, name: string, isOrigin: bool): (g': Graph)
    ensures g'.time == g.time && g'.maxlag == g.maxlag
    ensures Names(g'.nodes) == if name in Names(g.nodes) then Names(g.nodes) else Names(g.nodes) + [name]
    ensures Lookup(g'.nodes, name) == Some(NewNode(name, isOrigin))
    ensures forall j :: 0 <= j < |g.nodes| && g.nodes[j].name != name ==> g'.nodes[j] == g.nodes[j]
  {
    FindSpec(g.nodes, name);
    match Find(g.nodes, name)
    case Some(j) =>
      var g' := g.(nodes := g.nodes[j := NewNode(name, isOrigin)]);
      FindSpec(g'.nodes, name);
      g'
    case None =>
      var g' := g.(nodes := g.nodes + [NewNode(name, isOrigin)]);
      FindSpec(g'.nodes, name);
      g'
  }

  /** `write_node_condition(target, prop_from, intensity, lag)`: the condition
      is attached to `target` and reads from `source`. Only `target` is looked
      up; an unregistered `source` is accepted here. */
  function WriteNodeCondition(g: Graph, target: string, source: string, intensity: real, lag: int): (r: Step)
    ensures r.Raised? <==> target !in Names(g.nodes)
    ensures r.Raised? ==> r == Raised(KeyError(target), g)
    ensures r.graph.time == g.time && r.graph.maxlag == g.maxlag
    ensures Names(r.graph.nodes) == Names(g.nodes)
    ensures forall j :: 0 <= j < |g.nodes| ==>
      var (a, b) := (g.nodes[j], r.graph.nodes[j]);
      && b.name == a.name && b.isOrigin == a.isOrigin && b.values == a.values
      && (b.conds == a.conds || (r.Done? && a.name == target && b.conds == a.conds + [Cond(source, intensity, lag)]))
    ensures r.Done? ==> && Lookup(g.nodes, target).Some? && Lookup(r.graph.nodes, target).Some?
                        && Lookup(r.graph.nodes, target).value.conds
                           == Lookup(g.nodes, target).value.conds + [Cond(source, intensity, lag)]
  {
    FindSpec(g.nodes, target);
    match Find(g.nodes, target)
    case None => Raised(KeyError(target), g)
    case Some(j) =>
      var nodes' := g.nodes[j := AddCondition(g.nodes[j], source, intensity, lag)];
      FindSpec(nodes', target);
      Done(g.(nodes := nodes'))
  }

  /** One term's read, `self.nodes[cond["from"]].values[time - cond["lag"] - 1]`. */
  function Read(nodes: seq<Node>, c: Cond, time: int): Result<real, Error> {
    match Lookup(nodes, c.source)
    case None => Err(KeyError(c.source))
    case Some(src) =>
      match At(src.values, time - c.lag - 1)
      case None => Err(IndexError(c.source, time - c.lag - 1))
      case Some(v) => Ok(v)
  }

  /** The loop over `prop_conds`, left to right, with running total `acc`;
      the first failing read raises. */
  function Accumulate(nodes: seq<Node>, conds: seq<Cond>, time: int, acc: real): (r: Result<real, Error>)
    ensures r.Err? ==> r.error.KeyError? || r.error.IndexError?
  {
    if |conds| == 0 then Ok(acc)
    else match Read(nodes, conds[0], time)
      case Err(e) => Err(e)
      case Ok(v) => Accumulate(nodes, conds[1..], time, acc + conds[0].intensity * v)
  }

  /** The value `update` appends to `n`, read from the registry as it stands
      when `n`'s turn comes. */
  function NodeValue(nodes: seq<Node>, n: Node, time: int, draw: Draw): Result<real, Error> {
    if n.isOrigin then Ok(draw(n.name)) else Accumulate(nodes, n.conds, time, 0.0)
  }

  /** The node loop of `update` from position `i` on. Nodes before `i` are
      not touched; every later node gets at most one value, exactly one when
      no error is raised. */
  function UpdateFrom(g: Graph, i: nat, time: int, draw: Draw): (r: Step)
    ensures r.graph.time == g.time && r.graph.maxlag == g.maxlag
    ensures Grows(g.nodes, r.graph.nodes)
    ensures forall j :: 0 <= j < |g.nodes| ==>
      |r.graph.nodes[j].values| <= |g.nodes[j].values| + (if j < i then 0 else 1)
    ensures r.Done? ==> forall j :: i <= j < |g.nodes| ==>
      |r.graph.nodes[j].values| == |g.nodes[j].values| + 1
    ensures r.Raised? ==> r.error.KeyError? || r.error.IndexError?
    decreases |g.nodes| - i
  {
    if i >= |g.nodes| then Done(g)
    else match NodeValue(g.nodes, g.nodes[i], time, draw)
      case Err(e) => Raised(e, g)
      case Ok(v) => UpdateFrom(g.(nodes := g.nodes[i := Append(g.nodes[i], v)]), i + 1, time, draw)
  }

  /** One turn of the node loop. */
  lemma UpdateFromStep(g: Graph, i: nat, time: int, draw: Draw)
    requires i < |g.nodes| && NodeValue(g.nodes, g.nodes[i], time, draw).Ok?
    ensures UpdateFrom(g, i, time, draw)
         == UpdateFrom(g.(nodes := g.nodes[i := Append(g.nodes[i], NodeValue(g.nodes, g.nodes[i], time, draw).value)]),
                       i + 1, time, draw)
  {
  }

  /** The histories of positions `i .. p - 1` gained exactly one value each;
      every other node is as it was. */
  predicate ExtendedUpTo(before: seq<Node>, after: seq<Node>, i: nat, p: nat) {
    && Grows(before, after)
    && forall j :: 0 <= j < |before| ==>
         |after[j].values| == |before[j].values| + (if i <= j < p then 1 else 0)
  }

  /** A node loop that raises does so at some node `p` at or after `i`:
      the nodes from `i` up to `p` keep the value they were given, the rest
      are untouched, and the error is the one node `p`'s value raises
      against the registry as it then stands. */
  lemma {:induction false} UpdateFromRaisesPartway(g: Graph, i: nat, time: int, draw: Draw)
    ensures var r := UpdateFrom(g, i, time, draw);
      r.Raised? ==> exists p :: i <= p < |g.nodes| && ExtendedUpTo(g.nodes, r.graph.nodes, i, p)
                                && NodeValue(r.graph.nodes, r.graph.nodes[p], time, draw) == Err(r.error)
    decreases |g.nodes| - i
  {
    var r := UpdateFrom(g, i, time, draw);
    if i < |g.nodes| {
      match NodeValue(g.nodes, g.nodes[i], time, draw)
      case Err(e) =>
        assert ExtendedUpTo(g.nodes, r.graph.nodes, i, i);
      case Ok(v) =>
        var g' := g.(nodes := g.nodes[i := Append(g.nodes[i], v)]);
        UpdateFromRaisesPartway(g', i + 1, time, draw);
        if r.Raised? {
          var p :| i + 1 <= p < |g.nodes| && ExtendedUpTo(g'.nodes, r.graph.nodes, i + 1, p)
                   && NodeValue(r.graph.nodes, r.graph.nodes[p], time, draw) == Err(r.error);
          assert ExtendedUpTo(g.nodes, r.graph.nodes, i, p);
        }
    }
  }

  /** `update()`: raises before changing anything when the clock is unset;
      otherwise advances the clock first, so an error in the node loop leaves
      the clock advanced and only the nodes before the failing one extended. */
  function Update(g: Graph, draw: Draw): (r: Step)
    ensures g.time.None? ==> r == Raised(NotInitialized, g)
    ensures g.time.Some? ==> r.graph.time == Some(g.time.value + 1)
    ensures r.graph.maxlag == g.maxlag
    ensures Grows(g.nodes, r.graph.nodes)
    ensures forall j :: 0 <= j < |g.nodes| ==> |r.graph.nodes[j].values| <= |g.nodes[j].values| + 1
    ensures r.Done? ==> forall j :: 0 <= j < |g.nodes| ==> |r.graph.nodes[j].values| == |g.nodes[j].values| + 1
    ensures g.time.Some? && r.Raised? ==> r.error.KeyError? || r.error.IndexError?
  {
    match g.time
    case None => Raised(NotInitialized, g)
    case Some(t) => UpdateFrom(g.(time := Some(t + 1)), 0, t + 1, draw)
  }

  /** An initialized `update` that raises is not rolled back: it fails at
      some node `p`, the nodes before `p` keep their new value and the rest
      are untouched. */
  lemma UpdateRaisesPartway(g: Graph, draw: Draw)
    ensures var r := Update(g, draw);
      g.time.Some? && r.Raised? ==>
        exists p :: 0 <= p < |g.nodes| && ExtendedUpTo(g.nodes, r.graph.nodes, 0, p)
                    && NodeValue(r.graph.nodes, r.graph.nodes[p], g.time.value + 1, draw) == Err(r.error)
  {
    if g.time.Some? {
      UpdateFromRaisesPartway(g.(time := Some(g.time.value + 1)), 0, g.time.value + 1, draw);
    }
  }

  /** `k` consecutive calls of `update`, the `j`-th drawing from `draws(j)`;
      the first error stops the run. */
  function Run(g: Graph, k: nat, draws: nat -> Draw): Step
    decreases k
  {
    if k == 0 then Done(g)
    else
      var prev := Run(g, k - 1, draws);
      if prev.Raised? then prev else Update(prev.graph, draws(k - 1))
  }

  /** After `k - 1` successful updates, the `k`-th is a plain `update`. */
  lemma RunUnfold(g: Graph, k: nat, draws: nat -> Draw)
    requires k > 0 && Run(g, k - 1, draws).Done?
    ensures Run(g, k, draws) == Update(Run(g, k - 1, draws).graph, draws(k - 1))
  {
  }

  /** A run, finished or stopped by an error, only extends histories and
      keeps `maxlag`; a finished run of `k` updates advances the clock by
      `k` and appends exactly `k` values to every history. */
  lemma {:induction false} RunSpec(g: Graph, k: nat, draws: nat -> Draw)
    ensures var r := Run(g, k, draws);
      && r.graph.maxlag == g.maxlag
      && Grows(g.nodes, r.graph.nodes)
      && (r.Done? ==> g.time.Some? || k == 0)
      && (r.Done? && g.time.Some? ==> r.graph.time.Some? && r.graph.time.value == g.time.value + k)
      && (r.Done? ==> forall j :: 0 <= j < |g.nodes| ==> |r.graph.nodes[j].values| == |g.nodes[j].values| + k)
    decreases k
  {
    if k == 0 {
      GrowsReflexive(g.nodes);
    } else {
      RunSpec(g, k - 1, draws);
      var prev := Run(g, k - 1, draws);
      if prev.Done? {
        var r := Update(prev.graph, draws(k - 1));
        GrowsTransitive(g.nodes, prev.graph.nodes, r.graph.nodes);
      }
    }
  }

  /** Every history extended by `n * [0.0]`. */
  function Seed(nodes: seq<Node>, n: int): (r: seq<Node>)
    ensures |r| == |nodes|
    ensures forall j :: 0 <= j < |nodes| ==>
      SameShape(nodes[j], r[j]) && r[j].values == nodes[j].values + Repeat(n, 0.0)
  {
    seq(|nodes|, j requires 0 <= j < |nodes| => nodes[j].(values := nodes[j].values + Repeat(n, 0.0)))
  }

  /** `initialize(maxlag)`: seed every history with `maxlag` zeros, set
      `maxlag` and `time` to `maxlag`, then run `maxlag` burn-in updates. */
  function Initialize(g: Graph, maxlag: int, draws: nat -> Draw): (r: Step)
    ensures r.graph.maxlag == Some(maxlag)
    ensures |r.graph.nodes| == |g.nodes|
    ensures forall j :: 0 <= j < |g.nodes| ==>
      SameShape(g.nodes[j], r.graph.nodes[j]) && g.nodes[j].values + Repeat(maxlag, 0.0) <= r.graph.nodes[j].values
    ensures r.Done? ==> r.graph.time.Some? && r.graph.time.value == maxlag + Max0(maxlag)
    ensures r.Done? ==> forall j :: 0 <= j < |g.nodes| ==>
      |r.graph.nodes[j].values| == |g.nodes[j].values| + 2 * Max0(maxlag)
  {
    var seeded := Graph(Seed(g.nodes, maxlag), Some(maxlag), Some(maxlag));
    BurnInKeepsSeed(g, maxlag, draws);
    BurnInLengths(g, maxlag, draws);
    BurnInClock(g, maxlag, draws);
    Run(seeded, Max0(maxlag), draws)
  }

  /** The burn-in keeps every seeded history as a prefix. */
  lemma BurnInKeepsSeed(g: Graph, maxlag: int, draws: nat -> Draw)
    ensures var r := Run(Graph(Seed(g.nodes, maxlag), Some(maxlag), Some(maxlag)), Max0(maxlag), draws);
      && r.graph.maxlag == Some(maxlag) && |r.graph.nodes| == |g.nodes|
      && forall j :: 0 <= j < |g.nodes| ==>
        SameShape(g.nodes[j], r.graph.nodes[j]) && g.nodes[j].values + Repeat(maxlag, 0.0) <= r.graph.nodes[j].values
  {
    var seeded := Seed(g.nodes, maxlag);
    RunSpec(Graph(seeded, Some(maxlag), Some(maxlag)), Max0(maxlag), draws);
    var r := Run(Graph(seeded, Some(maxlag), Some(maxlag)), Max0(maxlag), draws);
    forall j | 0 <= j < |g.nodes|
      ensures SameShape(g.nodes[j], r.graph.nodes[j])
      ensures g.nodes[j].values + Repeat(maxlag, 0.0) <= r.graph.nodes[j].values
    {
      assert Extends(seeded[j], r.graph.nodes[j]);
    }
  }

  /** A successful burn-in leaves the clock at `maxlag + maxlag`. */
  lemma BurnInClock(g: Graph, maxlag: int, draws: nat -> Draw)
    ensures var r := Run(Graph(Seed(g.nodes, maxlag), Some(maxlag), Some(maxlag)), Max0(maxlag), draws);
      r.Done? ==> r.graph.time.Some? && r.graph.time.value == maxlag + Max0(maxlag)
  {
    var seeded := Graph(Seed(g.nodes, maxlag), Some(maxlag), Some(maxlag));
    if Run(seeded, Max0(maxlag), draws).Done? {
      RunSpec(seeded, Max0(maxlag), draws);
    }
  }

  /** A successful burn-in leaves `2 * maxlag` new values in every history. */
  lemma BurnInLengths(g: Graph, maxlag: int, draws: nat -> Draw)
    ensures var r := Run(Graph(Seed(g.nodes, maxlag), Some(maxlag), Some(maxlag)), Max0(maxlag), draws);
      r.Done? ==> |r.graph.nodes| == |g.nodes| && forall j :: 0 <= j < |g.nodes| ==>
        |r.graph.nodes[j].values| == |g.nodes[j].values| + 2 * Max0(maxlag)
  {
    var seeded := Seed(g.nodes, maxlag);
    RunSpec(Graph(seeded, Some(maxlag), Some(maxlag)), Max0(maxlag), draws);
    var r := Run(Graph(seeded, Some(maxlag), Some(maxlag)), Max0(maxlag), draws);
    if r.Done? {
      forall j | 0 <= j < |g.nodes|
        ensures |r.graph.nodes[j].values| == |g.nodes[j].values| + 2 * Max0(maxlag)
      {
        assert |seeded[j].values| == |g.nodes[j].values| + Max0(maxlag);
      }
    }
  }

  /** `realization`: one column per node in registration order, each history
      from absolute index `2 * maxlag` on. Reading `maxlag` happens inside
      the node loop, so only a non-empty graph raises before `initialize`. */
  function Realization(g: Graph): (r: Result<seq<Column>, Error>)
    ensures r.Err? <==> |g.nodes| > 0 && g.maxlag.None?
    ensures r.Err? ==> r.error == NoMaxlag
    ensures r.Ok? ==> |r.value| == |g.nodes|
    ensures r.Ok? ==> forall j :: 0 <= j < |g.nodes| ==>
      r.value[j].name == g.nodes[j].name
      && r.value[j].series == SliceFrom(g.nodes[j].values, 2 * g.maxlag.value)
  {
    if |g.nodes| == 0 then Ok([])
    else match g.maxlag
      case None => Err(NoMaxlag)
      case Some(m) =>
        Ok(seq(|g.nodes|, j requires 0 <= j < |g.nodes| =>
          Column(g.nodes[j].name, SliceFrom(g.nodes[j].values, 2 * m))))
  }
}

=== FILE: lifecycle.dfy ===
/**
 Whole runs of the engine: `initialize(maxlag)` on freshly registered nodes
 followed by `k` calls of `update` and a `realization`. Under the lag bound
 `1 <= lag <= maxlag` with every source registered, no call raises, every
 history holds exactly `time` values, and the realization is exactly what
 the `k` updates after the burn-in produced.
 */
module Lifecycle {
  import opened Wrappers
  import opened PyList
  import opened Nodes
  import opened Graphs
  import opened Propagation
  import opened Order

  /** No node has a history yet, as after `add_node`. */
  predicate Pristine(nodes: seq<Node>) {
    forall j :: 0 <= j < |nodes| ==> nodes[j].values == []
  }

  /** A call that builds the graph before `initialize`. */
  datatype SetupCall =
    | AddNodeCall(name: string, isOrigin: bool)
    | ConditionCall(target: string, source: string, intensity: real, lag: int)

  function Apply(g: Graph, call: SetupCall): Step {
    match call
    case AddNodeCall(name, isOrigin) => Done(AddNode(g, name, isOrigin))
    case ConditionCall(target, source, intensity, lag) => WriteNodeCondition(g, target, source, intensity, lag)
  }

  /** The calls in order; the first one that raises ends the script. */
  function Setup(g: Graph, calls: seq<SetupCall>): Step
    decreases |calls|
  {
    if |calls| == 0 then Done(g)
    else
      var prev := Setup(g, calls[..|calls| - 1]);
      if prev.Raised? then prev else Apply(prev.graph, calls[|calls| - 1])
  }

  /** Keys equal position by position stay unique. */
  lemma UniqueByNames(a: seq<Node>, b: seq<Node>)
    requires UniqueNames(a) && Names(a) == Names(b)
    ensures UniqueNames(b)
  {
    forall i, j | 0 <= i < j < |b| ensures b[i].name != b[j].name {
      assert Names(a)[i] == a[i].name && Names(a)[j] == a[j].name;
      assert Names(b)[i] == b[i].name && Names(b)[j] == b[j].name;
    }
  }

  /** One setup call keeps the keys unique and every history empty, and
      leaves the clock unset. */
  lemma ApplyKeeps(g: Graph, call: SetupCall)
    requires Pristine(g.nodes) && UniqueNames(g.nodes)
    ensures var r := Apply(g, call);
      Pristine(r.graph.nodes) && UniqueNames(r.graph.nodes)
      && r.graph.time == g.time && r.graph.maxlag == g.maxlag
  {
    match call
    case AddNodeCall(name, isOrigin) =>
      var g' := AddNode(g, name, isOrigin);
      AddNodeKeepsUnique(g, name, isOrigin);
      forall j | 0 <= j < |g'.nodes| ensures g'.nodes[j].values == [] {
        assert Names(g'.nodes)[j] == g'.nodes[j].name;
        if g'.nodes[j].name == name {
          LookupUnique(g'.nodes, g'.nodes[j]);
        }
      }
    case ConditionCall(target, source, intensity, lag) =>
      var r := WriteNodeCondition(g, target, source, intensity, lag);
      UniqueByNames(g.nodes, r.graph.nodes);
  }

  /** A script of `add_node` and `write_node_condition` calls on a new
      `Graph()` leaves a dict of nodes without history and the clock unset,
      whatever the calls and wherever the script stops. */
  lemma {:induction false} SetupFromNew(calls: seq<SetupCall>)
    ensures var r := Setup(NewGraph(), calls);
      Pristine(r.graph.nodes) && UniqueNames(r.graph.nodes)
      && r.graph.time.None? && r.graph.maxlag.None?
    decreases |calls|
  {
    if |calls| > 0 {
      SetupFromNew(calls[..|calls| - 1]);
      var prev := Setup(NewGraph(), calls[..|calls| - 1]);
      if prev.Done? {
        ApplyKeeps(prev.graph, calls[|calls| - 1]);
      }
    }
  }

  /** Raising the lag bound keeps a graph wired. */
  lemma WiredWeaken(nodes: seq<Node>, m: int, m': int)
    requires Wired(nodes, m) && m <= m'
    ensures Wired(nodes, m')
  {
  }

  /** One update of a synced graph whose lags are bounded by `m <= time`
      succeeds and keeps it synced, with the same bound. */
  lemma TickKeepsSynced(g: Graph, m: int, draw: Draw)
    requires Synced(g) && Wired(g.nodes, m) && m <= g.time.value
    ensures var r := Update(g, draw);
      && r.Done? && Synced(r.graph)
      && r.graph.time.value == g.time.value + 1
      && Wired(r.graph.nodes, m)
  {
    WiredWeaken(g.nodes, m, g.time.value);
    UpdateIsSnapshot(g, draw);
    NextTick(g, draw);
    WiredAfterGrowth(g.nodes, Update(g, draw).graph.nodes, m);
  }

  /** `k` updates of a synced, wired graph all succeed, each advancing the
      clock by one and keeping every history exactly `time` long. */
  lemma {:induction false} RunFromSynced(g: Graph, k: nat, draws: nat -> Draw)
    requires Synced(g) && Wired(g.nodes, g.time.value)
    ensures var r := Run(g, k, draws);
      && r.Done? && Synced(r.graph)
      && r.graph.time.value == g.time.value + k
      && Wired(r.graph.nodes, g.time.value)
    decreases k
  {
    if k > 0 {
      RunFromSynced(g, k - 1, draws);
      var prev := Run(g, k - 1, draws);
      TickKeepsSynced(prev.graph, g.time.value, draws(k - 1));
      RunUnfold(g, k, draws);
    }
  }

  /** The burn-in of `initialize` on nodes without history succeeds and
      leaves a synced, wired graph. */
  lemma BurnInSucceeds(g: Graph, maxlag: int, draws: nat -> Draw)
    requires Pristine(g.nodes) && Wired(g.nodes, maxlag)
    ensures var r := Initialize(g, maxlag, draws);
      r.Done? && (maxlag >= 0 ==> Synced(r.graph) && Wired(r.graph.nodes, maxlag))
  {
    var seeded := Graph(Seed(g.nodes, maxlag), Some(maxlag), Some(maxlag));
    assert Initialize(g, maxlag, draws) == Run(seeded, Max0(maxlag), draws);
    if maxlag >= 0 {
      assert Synced(seeded);
      assert Grows(g.nodes, seeded.nodes);
      WiredAfterGrowth(g.nodes, seeded.nodes, maxlag);
      RunFromSynced(seeded, maxlag, draws);
    }
  }

  /** On nodes without history, `initialize` leaves `2 * maxlag` values
      (none for a negative `maxlag`), the first `maxlag` of them zero. */
  lemma InitializeSeedsZeros(g: Graph, maxlag: int, draws: nat -> Draw)
    requires Pristine(g.nodes) && Initialize(g, maxlag, draws).Done?
    ensures var r := Initialize(g, maxlag, draws);
      forall j :: 0 <= j < |g.nodes| ==>
        && |r.graph.nodes[j].values| == 2 * Max0(maxlag)
        && r.graph.nodes[j].values[..Max0(maxlag)] == Repeat(maxlag, 0.0)
  {
    var r := Initialize(g, maxlag, draws);
    forall j | 0 <= j < |g.nodes|
      ensures r.graph.nodes[j].values[..Max0(maxlag)] == Repeat(maxlag, 0.0)
    {
      assert g.nodes[j].values + Repeat(maxlag, 0.0) == Repeat(maxlag, 0.0);
    }
  }

  /** `initialize(maxlag)` on nodes without history, whose lags lie in
      `1 ..= maxlag` and whose sources are registered: it succeeds, sets the
      clock to `2 * maxlag`, and leaves every node with `2 * maxlag` values,
      the first `maxlag` of them zero, its name, flag and conditions as
      they were. A negative `maxlag` seeds nothing and runs no update. */
  lemma InitializeFromPristine(g: Graph, maxlag: int, draws: nat -> Draw)
    requires Pristine(g.nodes) && Wired(g.nodes, maxlag)
    ensures var r := Initialize(g, maxlag, draws);
      && r.Done?
      && r.graph.maxlag == Some(maxlag)
      && r.graph.time == Some(maxlag + Max0(maxlag))
      && |r.graph.nodes| == |g.nodes|
      && (forall j :: 0 <= j < |g.nodes| ==>
            && SameShape(g.nodes[j], r.graph.nodes[j])
            && |r.graph.nodes[j].values| == 2 * Max0(maxlag)
            && r.graph.nodes[j].values[..Max0(maxlag)] == Repeat(maxlag, 0.0))
      && (maxlag >= 0 ==> Synced(r.graph) && Wired(r.graph.nodes, maxlag))
  {
    BurnInSucceeds(g, maxlag, draws);
    InitializeSeedsZeros(g, maxlag, draws);
  }

  /** One column of the realization after `k` updates that followed the
      burn-in: exactly the values those updates appended. */
  lemma ColumnIsTail(before: Node, after: Node, maxlag: nat, k: nat)
    requires Extends(before, after) && |before.values| == 2 * maxlag && |after.values| == 2 * maxlag + k
    ensures |SliceFrom(after.values, 2 * maxlag)| == k
    ensures after.values == before.values + SliceFrom(after.values, 2 * maxlag)
  {
    assert before.values == after.values[..2 * maxlag];
  }

  /** `initialize(maxlag)` on nodes without history, then `k` updates, then
      `realization`: nothing raises, there is one column per node in
      registration order, and each column holds exactly the `k` values the
      updates after the burn-in appended, so none when `k == 0`. */
  lemma RealizationAfterUpdates(g: Graph, maxlag: int, k: nat, burnIn: nat -> Draw, draws: nat -> Draw)
    requires Pristine(g.nodes) && Wired(g.nodes, maxlag) && maxlag >= 0
    ensures var init := Initialize(g, maxlag, burnIn);
      var run := Run(init.graph, k, draws);
      var cols := Realization(run.graph);
      && init.Done? && run.Done? && cols.Ok?
      && |cols.value| == |g.nodes|
      && forall j :: 0 <= j < |g.nodes| ==>
           && cols.value[j].name == g.nodes[j].name
           && |cols.value[j].series| == k
           && run.graph.nodes[j].values == init.graph.nodes[j].values + cols.value[j].series
  {
    InitializeFromPristine(g, maxlag, burnIn);
    var init := Initialize(g, maxlag, burnIn);
    WiredWeaken(init.graph.nodes, maxlag, init.graph.time.value);
    RunFromSynced(init.graph, k, draws);
    RunSpec(init.graph, k, draws);
    var run := Run(init.graph, k, draws);
    var cols := Realization(run.graph);
    forall j | 0 <= j < |g.nodes|
      ensures |cols.value[j].series| == k
      ensures run.graph.nodes[j].values == init.graph.nodes[j].values + cols.value[j].series
    {
      assert Extends(init.graph.nodes[j], run.graph.nodes[j]);
      ColumnIsTail(init.graph.nodes[j], run.graph.nodes[j], maxlag, k);
    }
  }
}

=== FILE: node.dfy ===
/**
 A node of the propagation graph: its name, whether it is an origin (driven
 by an external draw) and, otherwise, the ordered propagation conditions its
 value is computed from, plus its append-only history of values.
 */
module Nodes {

  /** One propagation condition `{"from": source, "intensity": .., "lag": ..}`:
      the owning node adds `intensity * source.values[time - lag - 1]`. */
  datatype Cond = Cond(source: string, intensity: real, lag: int)

  datatype Node = Node(name: string, isOrigin: bool, conds: seq<Cond>, values: seq<real>)

  /** Everything of a node except its history. */
  predicate SameShape(a: Node, b: Node) {
    a.name == b.name && a.isOrigin == b.isOrigin && a.conds == b.conds
  }

  /** `b` is `a` with zero or more values appended to its history. */
  predicate Extends(a: Node, b: Node) {
    SameShape(a, b) && a.values <= b.values
  }

  /** `Node(name, is_origin)`: no conditions and no history yet. */
  function NewNode(name: string, isOrigin: bool): (n: Node)
    ensures n.name == name && n.isOrigin == isOrigin
    ensures n.conds == [] && n.values == []
  {
    Node(name, isOrigin, [], [])
  }

  /** `add_condition`: the condition goes to the end of the list; nothing
      else about the node changes. */
  function AddCondition(n: Node, source: string, intensity: real, lag: int): (n': Node)
    ensures n'.name == n.name && n'.isOrigin == n.isOrigin && n'.values == n.values
    ensures |n'.conds| == |n.conds| + 1
    ensures n'.conds[..|n.conds|] == n.conds
    ensures n'.conds[|n.conds|] == Cond(source, intensity, lag)
  {
    n.(conds := n.conds + [Cond(source, intensity, lag)])
  }

  /** One more value at the end of the history. */
  function Append(n: Node, v: real): (n': Node)
    ensures SameShape(n, n')
    ensures n.values <= n'.values && |n'.values| == |n.values| + 1
    ensures n'.values[|n.values|] == v
  {
    n.(values := n.values + [v])
  }
}

=== FILE: order.dfy ===
/**
 Registration order does not matter to a tick, given the same draw per node
 name. A dict registered by `add_node` holds each name once; two such
 registries holding the same nodes in different orders give every node the
 same fresh value, because under the lag bound each read lands in a value
 written before the tick.
 */
module Order {
  import opened Wrappers
  import opened Nodes
  import opened Graphs
  import opened Propagation

  /** Each key occurs once, as in a dict. */
  predicate UniqueNames(nodes: seq<Node>) {
    forall i, j :: 0 <= i < j < |nodes| ==> nodes[i].name != nodes[j].name
  }

  /** The same dict, possibly registered in another order. */
  predicate SameRegistry(a: seq<Node>, b: seq<Node>) {
    && UniqueNames(a) && UniqueNames(b)
    && (forall i :: 0 <= i < |a| ==> a[i] in b)
    && (forall i :: 0 <= i < |b| ==> b[i] in a)
  }

  /** `add_node` keeps every key unique: a new key goes last, an existing
      key keeps its single position. */
  lemma AddNodeKeepsUnique(g: Graph, name: string, isOrigin: bool)
    requires UniqueNames(g.nodes)
    ensures UniqueNames(AddNode(g, name, isOrigin).nodes)
  {
    var g' := AddNode(g, name, isOrigin);
    var ns := Names(g.nodes);
    forall i, j | 0 <= i < j < |g'.nodes| ensures g'.nodes[i].name != g'.nodes[j].name {
      assert Names(g'.nodes)[i] == g'.nodes[i].name && Names(g'.nodes)[j] == g'.nodes[j].name;
      if j < |g.nodes| {
        assert ns[i] == g.nodes[i].name && ns[j] == g.nodes[j].name;
      } else {
        assert ns[i] == g.nodes[i].name;
      }
    }
  }

  /** In a dict, the lookup of a node's own key finds that node. */
  lemma LookupUnique(nodes: seq<Node>, n: Node)
    requires UniqueNames(nodes) && n in nodes
    ensures Lookup(nodes, n.name) == Some(n)
  {
    FindSpec(nodes, n.name);
    var i :| 0 <= i < |nodes| && nodes[i] == n;
    assert Names(nodes)[i] == n.name;
  }

  /** Two orders of the same dict answer every lookup alike. */
  lemma LookupAgrees(a: seq<Node>, b: seq<Node>, name: string)
    requires SameRegistry(a, b)
    ensures Lookup(a, name) == Lookup(b, name)
  {
    LookupSpec(a, name);
    LookupSpec(b, name);
    if Lookup(a, name).Some? {
      LookupUnique(b, Lookup(a, name).value);
    } else if Lookup(b, name).Some? {
      LookupUnique(a, Lookup(b, name).value);
    }
  }

  /** The reference sum only sees the registry through its lookups. */
  lemma {:induction false} ContributionAgrees(a: seq<Node>, b: seq<Node>, conds: seq<Cond>, time: int)
    requires SameRegistry(a, b) && AllInRange(a, conds, time)
    ensures AllInRange(b, conds, time)
    ensures Contribution(a, conds, time) == Contribution(b, conds, time)
    decreases |conds|
  {
    forall k | 0 <= k < |conds| ensures InRange(b, conds[k], time) {
      LookupAgrees(a, b, conds[k].source);
    }
    if |conds| > 0 {
      AllInRangeTail(a, conds, time);
      LookupAgrees(a, b, conds[0].source);
      ContributionAgrees(a, b, conds[1..], time);
    }
  }

  /** A registry in another order is synced and wired whenever the original
      is. */
  lemma ReorderKeepsWired(g: Graph, h: Graph)
    requires Synced(g) && Wired(g.nodes, g.time.value)
    requires h.time == g.time && SameRegistry(g.nodes, h.nodes)
    ensures Synced(h) && Wired(h.nodes, h.time.value)
  {
    forall k | 0 <= k < |h.nodes| ensures |h.nodes[k].values| == h.time.value {
      assert h.nodes[k] in g.nodes;
    }
    forall k, i | 0 <= k < |h.nodes| && !h.nodes[k].isOrigin && 0 <= i < |h.nodes[k].conds|
      ensures Lookup(h.nodes, h.nodes[k].conds[i].source).Some? && 1 <= h.nodes[k].conds[i].lag <= h.time.value
    {
      assert h.nodes[k] in g.nodes;
      var j :| 0 <= j < |g.nodes| && g.nodes[j] == h.nodes[k];
      LookupAgrees(g.nodes, h.nodes, h.nodes[k].conds[i].source);
    }
  }

  /** The same node gets the same fresh value whatever the registration
      order: the tick of a reordered dict extends every node exactly as the
      tick of the original does. */
  lemma TickIgnoresOrder(g: Graph, h: Graph, draw: Draw)
    requires Synced(g) && Wired(g.nodes, g.time.value)
    requires h.time == g.time && SameRegistry(g.nodes, h.nodes)
    ensures Synced(h) && Wired(h.nodes, h.time.value)
    ensures forall j, k :: 0 <= j < |g.nodes| && 0 <= k < |h.nodes| && g.nodes[j] == h.nodes[k] ==>
      Next(g, draw).nodes[j] == Next(h, draw).nodes[k]
  {
    ReorderKeepsWired(g, h);
    WiredReadsInRange(g);
    var t := g.time.value + 1;
    forall j, k | 0 <= j < |g.nodes| && 0 <= k < |h.nodes| && g.nodes[j] == h.nodes[k]
      ensures Next(g, draw).nodes[j] == Next(h, draw).nodes[k]
    {
      if !g.nodes[j].isOrigin {
        ContributionAgrees(g.nodes, h.nodes, g.nodes[j].conds, t);
      }
    }
  }

  /** `a`, an origin, and `b`, which copies `a` with lag 0. */
  function SameTickPair(): (r: seq<Node>)
    ensures |r| == 2
  {
    [Node("a", true, [], []), Node("b", false, [Cond("a", 1.0, 0)], [])]
  }

  /** With `a` first, `b` reads the value `a` has just received. */
  lemma SourceFirst(draw: Draw)
    ensures var r := Update(Graph(SameTickPair(), Some(0), Some(0)), draw);
      r.Done? && r.graph.nodes[1].values == [draw("a")]
  {
    var a := SameTickPair()[0];
    var b := SameTickPair()[1];
    var a' := Append(a, draw("a"));
    var g1 := Graph([a, b], Some(1), Some(0));
    UpdateFromStep(g1, 0, 1, draw);
    var g1' := g1.(nodes := [a', b]);
    assert g1.nodes[0 := a'] == g1'.nodes;
    assert Find(g1'.nodes, "a") == Some(0);
    assert Read(g1'.nodes, Cond("a", 1.0, 0), 1) == Ok(draw("a"));
    AccumulateStep(g1'.nodes, b.conds, 1, 0.0);
    assert b.conds[1..] == [];
    assert NodeValue(g1'.nodes, b, 1, draw) == Ok(0.0 + 1.0 * draw("a"));
    UpdateFromStep(g1', 1, 1, draw);
  }

  /** With `b` first, the slot `b` reads does not exist yet. */
  lemma SourceSecond(draw: Draw)
    ensures var r := Update(Graph([SameTickPair()[1], SameTickPair()[0]], Some(0), Some(0)), draw);
      r.Raised? && r.error == IndexError("a", 0)
  {
    var a := SameTickPair()[0];
    var b := SameTickPair()[1];
    var g2 := Graph([b, a], Some(1), Some(0));
    assert "b" != "a" by { assert "b"[0] != "a"[0]; }
    assert g2.nodes[1..] == [a];
    assert Find(g2.nodes[1..], "a") == Some(0);
    assert Find(g2.nodes, "a") == Some(1);
    assert Read(g2.nodes, Cond("a", 1.0, 0), 1) == Err(IndexError("a", 0));
  }

  /** Without the lag bound the order does matter: with `lag = 0` a node
      reads the slot its source fills in the same tick, which exists only
      if the source came first. Here `b` copies `a` with lag 0, starting
      from `initialize(0)`; the two registries hold the same dict. */
  lemma SameTickReadDependsOnOrder(draw: Draw)
    ensures var p := SameTickPair();
      var first := Update(Graph(p, Some(0), Some(0)), draw);
      var second := Update(Graph([p[1], p[0]], Some(0), Some(0)), draw);
      && SameRegistry(p, [p[1], p[0]])
      && first.Done? && first.graph.nodes[1].values == [draw("a")]
      && second.Raised? && second.error == IndexError("a", 0)
  {
    SourceFirst(draw);
    SourceSecond(draw);
    assert "b" != "a" by { assert "b"[0] != "a"[0]; }
  }
}

=== FILE: propagation.dfy ===
/**
 The propagation recurrence, stated independently of the node loop. A tick
 computes, for every node at once, from the histories as they stood before
 the tick: an origin node takes its draw, any other node the sum over its
 conditions of `intensity * source.values[time - lag - 1]`. When every
 history holds `time` values and every lag lies in `1 ..= time`, the node
 loop of `update`, which reads a registry it is extending as it goes,
 computes exactly this: each read lands strictly in the past.
 */
module Propagation {
  import opened Wrappers
  import opened PyList
  import opened Nodes
  import opened Graphs

  /** The clock is set and every history holds exactly `time` values. */
  predicate Synced(g: Graph) {
    g.time.Some? && forall j :: 0 <= j < |g.nodes| ==> |g.nodes[j].values| == g.time.value
  }

  /** Every condition of a non-origin node reads from a registered node, with
      a lag between 1 and `m`. */
  predicate Wired(nodes: seq<Node>, m: int) {
    forall j, k :: 0 <= j < |nodes| && !nodes[j].isOrigin && 0 <= k < |nodes[j].conds| ==>
      Lookup(nodes, nodes[j].conds[k].source).Some? && 1 <= nodes[j].conds[k].lag <= m
  }

  /** Condition `c` read at clock `time` names a registered node whose
      history has a value at `time - lag - 1`. */
  predicate InRange(nodes: seq<Node>, c: Cond, time: int) {
    Lookup(nodes, c.source).Some? && 0 <= time - c.lag - 1 < |Lookup(nodes, c.source).value.values|
  }

  predicate AllInRange(nodes: seq<Node>, conds: seq<Cond>, time: int) {
    forall k :: 0 <= k < |conds| ==> InRange(nodes, conds[k], time)
  }

  /** One condition's contribution. */
  function Term(nodes: seq<Node>, c: Cond, time: int): real
    requires InRange(nodes, c, time)
  {
    c.intensity * Lookup(nodes, c.source).value.values[time - c.lag - 1]
  }

  /** The sum of the terms of `conds`, taken in list order (the order is
      immaterial over exact reals). */
  function Contribution(nodes: seq<Node>, conds: seq<Cond>, time: int): real
    requires AllInRange(nodes, conds, time)
  {
    if |conds| == 0 then 0.0
    else Term(nodes, conds[0], time) + Contribution(nodes, conds[1..], time)
  }

  /** The value node `n` receives at clock `time`, computed from `nodes`. */
  function Fresh(nodes: seq<Node>, n: Node, time: int, draw: Draw): real
    requires !n.isOrigin ==> AllInRange(nodes, n.conds, time)
  {
    if n.isOrigin then draw(n.name) else Contribution(nodes, n.conds, time)
  }

  /** In a synced, wired graph every read of the next tick is in range: at
      the advanced clock `t = time + 1` the index `t - lag - 1` lies in
      `0 ..= t - 2`, a slot written before the tick. */
  lemma WiredReadsInRange(g: Graph)
    requires Synced(g) && Wired(g.nodes, g.time.value)
    ensures forall j, k :: 0 <= j < |g.nodes| && !g.nodes[j].isOrigin && 0 <= k < |g.nodes[j].conds| ==>
      var t := g.time.value + 1;
      0 <= t - g.nodes[j].conds[k].lag - 1 <= t - 2
    ensures forall j :: 0 <= j < |g.nodes| && !g.nodes[j].isOrigin ==>
      AllInRange(g.nodes, g.nodes[j].conds, g.time.value + 1)
  {
  }

  /** The reference tick: every node extended by its fresh value, all values
      computed from the pre-tick histories. */
  function Next(g: Graph, draw: Draw): Graph
    requires Synced(g) && Wired(g.nodes, g.time.value)
  {
    WiredReadsInRange(g);
    var t := g.time.value + 1;
    Graph(seq(|g.nodes|, j requires 0 <= j < |g.nodes| => Append(g.nodes[j], Fresh(g.nodes, g.nodes[j], t, draw))),
          Some(t), g.maxlag)
  }

  /** Growing histories keeps every key at its position. */
  lemma GrowsKeepsNames(before: seq<Node>, after: seq<Node>)
    requires Grows(before, after)
    ensures Names(before) == Names(after)
  {
    assert forall j :: 0 <= j < |before| ==> Extends(before[j], after[j]);
  }

  /** Lookups only see the keys. */
  lemma FindByNames(a: seq<Node>, b: seq<Node>, name: string)
    requires Names(a) == Names(b)
    ensures Find(a, name) == Find(b, name)
  {
    assert forall j :: 0 <= j < |a| ==> a[j].name == Names(a)[j] == b[j].name;
  }

  /** Growing histories keeps every condition wired. */
  lemma WiredAfterGrowth(before: seq<Node>, after: seq<Node>, m: int)
    requires Grows(before, after) && Wired(before, m)
    ensures Wired(after, m)
  {
    GrowsKeepsNames(before, after);
    forall j, k | 0 <= j < |after| && !after[j].isOrigin && 0 <= k < |after[j].conds|
      ensures Lookup(after, after[j].conds[k].source).Some? && 1 <= after[j].conds[k].lag <= m
    {
      assert Extends(before[j], after[j]);
      FindByNames(before, after, after[j].conds[k].source);
    }
  }

  lemma LookupAt(nodes: seq<Node>, name: string, j: nat)
    requires Find(nodes, name) == Some(j)
    ensures Lookup(nodes, name) == Some(nodes[j])
  {
  }

  lemma ReadOf(nodes: seq<Node>, c: Cond, time: int, j: nat, v: real)
    requires j < |nodes| && Lookup(nodes, c.source) == Some(nodes[j])
    requires At(nodes[j].values, time - c.lag - 1) == Some(v)
    ensures Read(nodes, c, time) == Ok(v)
  {
  }

  lemma GrowthKeepsAt(before: seq<Node>, after: seq<Node>, j: nat, i: int)
    requires Grows(before, after) && j < |before| && 0 <= i < |before[j].values|
    ensures At(after[j].values, i) == Some(before[j].values[i])
  {
    assert Extends(before[j], after[j]);
    AtPrefix(before[j].values, after[j].values, i);
  }

  /** A read that is in range before some histories grow returns the same
      value afterwards. */
  lemma ReadAfterGrowth(before: seq<Node>, after: seq<Node>, c: Cond, time: int)
    requires Grows(before, after) && InRange(before, c, time)
    ensures Read(after, c, time) == Ok(Lookup(before, c.source).value.values[time - c.lag - 1])
  {
    GrowsKeepsNames(before, after);
    FindByNames(before, after, c.source);
    var j := Find(before, c.source).value;
    LookupAt(before, c.source, j);
    LookupAt(after, c.source, j);
    var v := before[j].values[time - c.lag - 1];
    GrowthKeepsAt(before, after, j, time - c.lag - 1);
    ReadOf(after, c, time, j, v);
  }

  /** One turn of the loop over the conditions. */
  lemma AccumulateStep(nodes: seq<Node>, conds: seq<Cond>, time: int, acc: real)
    requires |conds| > 0 && Read(nodes, conds[0], time).Ok?
    ensures Accumulate(nodes, conds, time, acc)
         == Accumulate(nodes, conds[1..], time, acc + conds[0].intensity * Read(nodes, conds[0], time).value)
  {
  }

  lemma AllInRangeTail(nodes: seq<Node>, conds: seq<Cond>, time: int)
    requires |conds| > 0 && AllInRange(nodes, conds, time)
    ensures InRange(nodes, conds[0], time) && AllInRange(nodes, conds[1..], time)
  {
    forall k | 0 <= k < |conds| - 1 ensures InRange(nodes, conds[1..][k], time) {
      assert conds[1..][k] == conds[k + 1];
    }
  }

  /** The loop over the conditions computes the reference sum, whatever
      growth the registry has seen since the reads became in range. */
  lemma {:induction false} AccumulateIsContribution(before: seq<Node>, after: seq<Node>, conds: seq<Cond>, time: int, acc: real)
    requires Grows(before, after) && AllInRange(before, conds, time)
    ensures Accumulate(after, conds, time, acc) == Ok(acc + Contribution(before, conds, time))
    decreases |conds|
  {
    if |conds| > 0 {
      AllInRangeTail(before, conds, time);
      ReadAfterGrowth(before, after, conds[0], time);
      var term := Term(before, conds[0], time);
      var rest := Contribution(before, conds[1..], time);
      assert Contribution(before, conds, time) == term + rest;
      assert conds[0].intensity * Read(after, conds[0], time).value == term;
      AccumulateStep(after, conds, time, acc);
      AccumulateIsContribution(before, after, conds[1..], time, acc + term);
      calc {
        Accumulate(after, conds, time, acc);
        Accumulate(after, conds[1..], time, acc + term);
        Ok(acc + term + rest);
        { assert acc + term + rest == acc + (term + rest); }
        Ok(acc + Contribution(before, conds, time));
      }
    }
  }

  /** Every read of `conds` succeeds. */
  predicate ReadsOk(nodes: seq<Node>, conds: seq<Cond>, time: int) {
    forall k :: 0 <= k < |conds| ==> Read(nodes, conds[k], time).Ok?
  }

  /** Read `k` is the first of `conds` to fail, and fails with `e`. */
  predicate FirstFailure(nodes: seq<Node>, conds: seq<Cond>, time: int, k: int, e: Error) {
    && 0 <= k < |conds|
    && Read(nodes, conds[k], time).Err? && Read(nodes, conds[k], time).error == e
    && ReadsOk(nodes, conds[..k], time)
  }

  lemma ReadsOkCons(nodes: seq<Node>, conds: seq<Cond>, time: int)
    requires |conds| > 0
    ensures ReadsOk(nodes, conds, time) <==> Read(nodes, conds[0], time).Ok? && ReadsOk(nodes, conds[1..], time)
  {
    if Read(nodes, conds[0], time).Ok? && ReadsOk(nodes, conds[1..], time) {
      forall k | 0 <= k < |conds| ensures Read(nodes, conds[k], time).Ok? {
        if k > 0 { assert conds[k] == conds[1..][k - 1]; }
      }
    }
    if ReadsOk(nodes, conds, time) {
      forall k | 0 <= k < |conds| - 1 ensures Read(nodes, conds[1..][k], time).Ok? {
        assert conds[1..][k] == conds[k + 1];
      }
    }
  }

  lemma FirstFailureCons(nodes: seq<Node>, conds: seq<Cond>, time: int, k: int, e: Error)
    requires |conds| > 0 && Read(nodes, conds[0], time).Ok? && FirstFailure(nodes, conds[1..], time, k, e)
    ensures FirstFailure(nodes, conds, time, k + 1, e)
  {
    assert conds[1..][k] == conds[k + 1];
    assert conds[..k + 1][1..] == conds[1..][..k];
    ReadsOkCons(nodes, conds[..k + 1], time);
  }

  /** The loop over the conditions succeeds exactly when every read does, and
      otherwise raises the error of the first failing read. */
  lemma {:induction false} AccumulateRaisesFirstError(nodes: seq<Node>, conds: seq<Cond>, time: int, acc: real)
    ensures Accumulate(nodes, conds, time, acc).Ok? <==> ReadsOk(nodes, conds, time)
    ensures Accumulate(nodes, conds, time, acc).Err? ==>
      exists k :: FirstFailure(nodes, conds, time, k, Accumulate(nodes, conds, time, acc).error)
    decreases |conds|
  {
    if |conds| > 0 {
      ReadsOkCons(nodes, conds, time);
      var r := Read(nodes, conds[0], time);
      if r.Err? {
        assert FirstFailure(nodes, conds, time, 0, Accumulate(nodes, conds, time, acc).error);
      } else {
        var acc' := acc + conds[0].intensity * r.value;
        AccumulateStep(nodes, conds, time, acc);
        assert Accumulate(nodes, conds, time, acc) == Accumulate(nodes, conds[1..], time, acc + conds[0].intensity * Read(nodes, conds[0], time).value);
        assert acc' == acc + conds[0].intensity * Read(nodes, conds[0], time).value;
        AccumulateRaisesFirstError(nodes, conds[1..], time, acc');
        var rest := Accumulate(nodes, conds[1..], time, acc');
        assert Accumulate(nodes, conds, time, acc) == rest;
        if rest.Err? {
          var k :| FirstFailure(nodes, conds[1..], time, k, rest.error);
          FirstFailureCons(nodes, conds, time, k, rest.error);
        }
      }
    }
  }

  /** The node loop from position `i` raises if some later non-origin node
      has a condition reading from an unregistered name: it either fails
      earlier or reaches that node, whose loop over the conditions fails. */
  lemma {:induction false} UpdateFromReachesMissingSource(g: Graph, i: nat, time: int, draw: Draw, j: nat, k: nat)
    requires i <= j < |g.nodes| && !g.nodes[j].isOrigin && k < |g.nodes[j].conds|
    requires g.nodes[j].conds[k].source !in Names(g.nodes)
    ensures UpdateFrom(g, i, time, draw).Raised?
    decreases |g.nodes| - i
  {
    var v := NodeValue(g.nodes, g.nodes[i], time, draw);
    if i == j {
      LookupSpec(g.nodes, g.nodes[j].conds[k].source);
      AccumulateRaisesFirstError(g.nodes, g.nodes[j].conds, time, 0.0);
    } else if v.Ok? {
      var g' := g.(nodes := g.nodes[i := Append(g.nodes[i], v.value)]);
      UpdateFromStep(g, i, time, draw);
      assert Grows(g.nodes, g'.nodes) by {
        assert forall m :: 0 <= m < |g.nodes| && m != i ==> g'.nodes[m] == g.nodes[m];
      }
      GrowsKeepsNames(g.nodes, g'.nodes);
      assert g'.nodes[j] == g.nodes[j];
      UpdateFromReachesMissingSource(g', i + 1, time, draw, j, k);
    }
  }

  /** `write_node_condition` does not check the source; the first `update`
      afterwards raises (with the clock already advanced) when some
      non-origin node reads from an unregistered name. */
  lemma UpdateRaisesOnMissingSource(g: Graph, draw: Draw, j: nat, k: nat)
    requires g.time.Some? && j < |g.nodes| && !g.nodes[j].isOrigin && k < |g.nodes[j].conds|
    requires g.nodes[j].conds[k].source !in Names(g.nodes)
    ensures Update(g, draw).Raised? && Update(g, draw).graph.time == Some(g.time.value + 1)
  {
    var g' := g.(time := Some(g.time.value + 1));
    assert Names(g'.nodes) == Names(g.nodes);
    UpdateFromReachesMissingSource(g', 0, g.time.value + 1, draw, j, k);
  }

  /** The state of the node loop after `i` nodes: those are already
      extended, the rest are as before the tick. */
  function Midway(g: Graph, draw: Draw, i: nat): Graph
    requires Synced(g) && Wired(g.nodes, g.time.value) && i <= |g.nodes|
  {
    var n := Next(g, draw);
    Graph(seq(|g.nodes|, j requires 0 <= j < |g.nodes| => if j < i then n.nodes[j] else g.nodes[j]),
          n.time, n.maxlag)
  }

  lemma MidwayGrows(g: Graph, draw: Draw, i: nat)
    requires Synced(g) && Wired(g.nodes, g.time.value) && i <= |g.nodes|
    ensures Grows(g.nodes, Midway(g, draw, i).nodes)
  {
    var n := Next(g, draw);
    var cur := Midway(g, draw, i);
    forall j | 0 <= j < |g.nodes| ensures Extends(g.nodes[j], cur.nodes[j]) {
      if j < i { assert cur.nodes[j] == n.nodes[j]; }
    }
  }

  /** Node `i`'s turn reads a registry that has only grown since the tick
      began, so it computes the node's fresh value. */
  lemma MidwayValue(g: Graph, draw: Draw, i: nat)
    requires Synced(g) && Wired(g.nodes, g.time.value) && i < |g.nodes|
    ensures var r := NodeValue(Midway(g, draw, i).nodes, g.nodes[i], g.time.value + 1, draw);
      r.Ok? && r.value == Fresh(g.nodes, g.nodes[i], g.time.value + 1, draw)
  {
    WiredReadsInRange(g);
    if !g.nodes[i].isOrigin {
      MidwayGrows(g, draw, i);
      AccumulateIsContribution(g.nodes, Midway(g, draw, i).nodes, g.nodes[i].conds, g.time.value + 1, 0.0);
    }
  }

  /** Node `i`'s turn moves the loop from `Midway(i)` to `Midway(i + 1)`. */
  lemma MidwayAdvance(g: Graph, draw: Draw, i: nat)
    requires Synced(g) && Wired(g.nodes, g.time.value) && i < |g.nodes|
    ensures var cur := Midway(g, draw, i);
      cur.nodes[i] == g.nodes[i]
      && cur.(nodes := cur.nodes[i := Append(cur.nodes[i], Fresh(g.nodes, g.nodes[i], g.time.value + 1, draw))])
         == Midway(g, draw, i + 1)
  {
    WiredReadsInRange(g);
    var cur := Midway(g, draw, i);
    var nxt := Midway(g, draw, i + 1);
    var v := Fresh(g.nodes, g.nodes[i], g.time.value + 1, draw);
    assert cur.nodes[i := Append(cur.nodes[i], v)] == nxt.nodes;
  }

  lemma {:induction false} UpdateFromIsSnapshot(g: Graph, draw: Draw, i: nat)
    requires Synced(g) && Wired(g.nodes, g.time.value) && i <= |g.nodes|
    ensures var r := UpdateFrom(Midway(g, draw, i), i, g.time.value + 1, draw);
      r.Done? && r.graph == Next(g, draw)
    decreases |g.nodes| - i
  {
    var t := g.time.value + 1;
    var cur := Midway(g, draw, i);
    if i == |g.nodes| {
      assert cur == Next(g, draw);
    } else {
      MidwayValue(g, draw, i);
      MidwayAdvance(g, draw, i);
      UpdateFromStep(cur, i, t, draw);
      UpdateFromIsSnapshot(g, draw, i + 1);
    }
  }

  /** The reference tick advances the clock by one and appends to every
      node, origin or not, exactly its fresh value computed from the
      pre-tick histories: an origin its draw, a node without conditions 0.
      Names, flags and conditions do not change, and the graph stays
      synced. */
  lemma NextTick(g: Graph, draw: Draw)
    requires Synced(g) && Wired(g.nodes, g.time.value)
    ensures Synced(Next(g, draw)) && Next(g, draw).time == Some(g.time.value + 1)
    ensures Next(g, draw).maxlag == g.maxlag && |Next(g, draw).nodes| == |g.nodes|
    ensures forall j :: 0 <= j < |g.nodes| ==>
      SameShape(g.nodes[j], Next(g, draw).nodes[j])
      && Next(g, draw).nodes[j].values == g.nodes[j].values + [Fresh(g.nodes, g.nodes[j], g.time.value + 1, draw)]
    ensures forall j :: 0 <= j < |g.nodes| && g.nodes[j].isOrigin ==>
      Next(g, draw).nodes[j].values == g.nodes[j].values + [draw(g.nodes[j].name)]
    ensures forall j :: 0 <= j < |g.nodes| && !g.nodes[j].isOrigin && g.nodes[j].conds == [] ==>
      Next(g, draw).nodes[j].values == g.nodes[j].values + [0.0]
  {
  }

  /** One `update` on a synced graph whose lags lie in `1 ..= time` is the
      reference tick, whatever the order of the registry. */
  lemma UpdateIsSnapshot(g: Graph, draw: Draw)
    requires Synced(g) && Wired(g.nodes, g.time.value)
    ensures Update(g, draw) == Done(Next(g, draw))
  {
    assert Midway(g, draw, 0) == g.(time := Some(g.time.value + 1));
    UpdateFromIsSnapshot(g, draw, 0);
    assert Update(g, draw) == UpdateFrom(Midway(g, draw, 0), 0, g.time.value + 1, draw);
  }
}

=== FILE: pylist.dfy ===
/**
 The three pieces of Python list semantics the engine relies on: `xs[i]`
 (negative indices count from the end), `xs[start:]` (a start that is
 negative or past the end is clamped, never an error) and `n * [v]`.
 */
module PyList {
  import opened Wrappers

  /** `xs[i]`: `None` stands for Python's IndexError. */
  function At<T>(xs: seq<T>, i: int): (r: Option<T>)
    ensures r.Some? <==> -|xs| <= i < |xs|
    ensures 0 <= i < |xs| ==> r == Some(xs[i])
    ensures -|xs| <= i < 0 ==> r == Some(xs[|xs| + i])
  {
    if 0 <= i < |xs| then Some(xs[i])
    else if -|xs| <= i < 0 then Some(xs[|xs| + i])
    else None
  }

  /** A non-negative index that is in range of a prefix reads the prefix's
      element, however much was appended after it. */
  lemma AtPrefix<T>(xs: seq<T>, ys: seq<T>, i: int)
    requires xs <= ys && 0 <= i < |xs|
    ensures At(ys, i) == Some(xs[i])
  {
  }

  /** `xs[start:]`. */
  function SliceFrom<T>(xs: seq<T>, start: int): (r: seq<T>)
    ensures 0 <= start <= |xs| ==> r == xs[start..]
    ensures start > |xs| ==> r == []
    ensures start < 0 ==> r == xs[Max0(|xs| + start)..]
  {
    if start >= 0 then (if start <= |xs| then xs[start..] else [])
    else if -start <= |xs| then xs[|xs| + start..]
    else xs
  }

  /** `n` clamped at zero, the count Python uses for `n * [v]` and `range(n)`. */
  function Max0(n: int): (r: nat)
    ensures n >= 0 ==> r == n
    ensures n < 0 ==> r == 0
  {
    if n > 0 then n else 0
  }

  /** `n * [v]`: `n` copies of `v`, none when `n <= 0`. */
  function Repeat<T>(n: int, v: T): (r: seq<T>)
    ensures |r| == Max0(n)
    ensures forall i :: 0 <= i < |r| ==> r[i] == v
  {
    seq(Max0(n), _ => v)
  }
}

=== FILE: wrappers.dfy ===
/** Option and Result, the two failure-carrying shapes the model uses. */
module Wrappers {

  /** A value that may be absent: a dictionary miss, an index out of range. */
  datatype Option<+T> = None | Some(value: T)

  /** A computation that either yields a value or raises an error. */
  datatype Result<+T, +E> = Ok(value: T) | Err(error: E)
}
